=== FILE: README.md ===
# ImageColorAdapt brightness adaptation, modelled in Dafny

ImageColorAdapt is an Android app. It shows a captured or picked photo after
adapting its brightness to the screen. The core is a handful of integer pixel
computations in `MainActivity.kt`:

- two statistics of the decoded bitmap:
  - the maximum pixel brightness, the largest truncated average `(R+G+B)/3`;
  - the white point, the truncated mean brightness of the near-white pixels
    (every channel above 205), or 255 when there are none;
- the screen-brightness percentage `(raw*100)/255`;
- the five-argument `adjustBrightness`. It scales every colour channel by
  `(screenBrightness/100)·(imageWhitePoint/screenWhitePoint)`, truncates
  with `toInt()`, clamps with `coerceIn(0, maxPixelBrightness)` and repacks
  the ARGB word;
- the EXIF orientation dispatch of `rotateBitmap`;
- the two-argument `adjustBrightness` that ties these together.

The model is functional: a bitmap is `Image(width, height, pixels)` with the
pixels as ARGB tuples, listed in the order the source's `x`-outer/`y`-inner
loops visit them. The statistics are folds over that sequence. The source's
scans are also written as methods with nested loops, which are proved equal
to the folds.

Modules, one file each:

| file | module | models |
|---|---|---|
| kotlin_int.dfy | `KotlinInt` | Kotlin `Int`: 32-bit wrap-around, `/` truncating toward zero, `shl`, `or` |
| argb.dfy | `Argb` | channel extraction (`shr`/`and 0xff`, `Color.red` …) and packing |
| bitmap.dfy | `Bitmap` | the bitmap, `getPixel(x, y)`, the scan order |
| statistics.dfy | `Statistics` | `getMaxPixelBrightness`, `getImageWhitePoint` |
| screen.dfy | `Screen` | the arithmetic of `getScreenBrightnessPercentage` |
| transform.dfy | `Transform` | the five-argument `adjustBrightness` |
| orientation.dfy | `Orientation` | `rotateBitmap`'s dispatch on the EXIF Orientation tag |
| pipeline.dfy | `Pipeline` | the two-argument `adjustBrightness` |

Inputs that come from the platform are parameters:

- the raw screen-brightness setting (`rawBrightness`, where -1 means unreadable);
- the EXIF orientation code;
- the geometric rotation done by `Bitmap.createBitmap`. It is a function
  `rotate(bitmap, degrees)`, and the model claims no particular pixel mapping
  for it.

The model follows the code in these places:

- The percentage truncates (`(raw*100)/255` in Kotlin `Int`). It is not
  rounded to nearest, so raw 2 gives 0%, not 1%. The sentinel -1 gives 0%,
  not a negative percentage.
- The statistics are taken from the bitmap before rotation, and the
  transform is applied to the rotated bitmap. `Pipeline.AnalysisOrderIrrelevant`
  proves this gives the same result as analysing the rotated bitmap,
  whenever the rotation only rearranges pixels.
- The upper bound of the clamp is a parameter of the transform. A negative
  bound makes Kotlin's `coerceIn` throw, but only once a pixel is reached.
  So the model returns `EmptyRange` exactly for a non-empty bitmap with
  `maxPixelBrightness < 0`.
- Only EXIF codes 6, 3 and 8 (ROTATE_90, ROTATE_180, ROTATE_270) rotate.
  The mirrored codes 2, 4, 5 and 7 are ignored, including TRANSPOSE and
  TRANSVERSE, which also contain a quarter turn. The code values are those
  of the Orientation tag (0x0112) in Exif 2.3 (JEITA CP-3451).

## Model

| member | source | states |
|---|---|---|
| Argb.Unpack | app/src/main/java/com/example/imagecoloradapt/MainActivity.kt:134-137 | the four extracted bytes are the base-256 digits of the word's 32-bit pattern, so the word's unsigned value is `a·2^24 + r·2^16 + g·2^8 + b` for negative words too |
| Argb.PackedValue | app/src/main/java/com/example/imagecoloradapt/MainActivity.kt:150 | for 8-bit channels, `alpha shl 24 or (red shl 16) or (green shl 8) or blue` has the positional sum of the channels as its 32-bit pattern: the ORs never overlap |
| Argb.PackUnpack | app/src/main/java/com/example/imagecoloradapt/MainActivity.kt:134-150 | every colour word is the packing of its extracted channels, so words and pixels correspond one to one |
| Argb.UnpackPack | app/src/main/java/com/example/imagecoloradapt/MainActivity.kt:134-150 | repacking with `alpha shl 24 or (red shl 16) or (green shl 8) or blue` and extracting with `shr`/`and 0xff` returns the same four channels, sign bit included |
| Statistics.MaxBrightness | app/src/main/java/com/example/imagecoloradapt/MainActivity.kt:175-189 | the running maximum lies in [0,255]; it is 0 for an empty bitmap; no pixel's `(R+G+B)/3` exceeds it |
| Statistics.MaxBrightnessAttained | app/src/main/java/com/example/imagecoloradapt/MainActivity.kt:180-185 | in a non-empty bitmap some pixel's `(R+G+B)/3` equals the maximum: it is replaced only by a brighter pixel's value |
| Statistics.MaxOverColumn | app/src/main/java/com/example/imagecoloradapt/MainActivity.kt:179-186 | the inner loop over one column extends the running maximum to the end of that column |
| Statistics.GetMaxPixelBrightness | app/src/main/java/com/example/imagecoloradapt/MainActivity.kt:175-189 | the nested x/y scan computes the running maximum; the result is in [0,255]; it is 0 when width or height is 0; no `getPixel(x, y)` is brighter |
| Statistics.MaxBrightnessBoundsGrid | app/src/main/java/com/example/imagecoloradapt/MainActivity.kt:178-186 | every pixel of the grid, addressed by (x, y), is at most the maximum |
| Statistics.MaxBrightnessPermutation | app/src/main/java/com/example/imagecoloradapt/MainActivity.kt:178-188 | any rearrangement of the pixels gives the same maximum |
| Statistics.NearWhiteTally | app/src/main/java/com/example/imagecoloradapt/MainActivity.kt:192-210 | the exact count of near-white pixels is at most the pixel count, and is 0 exactly when no pixel has every channel above 205; their brightness sum lies between 206 and 255 times the count |
| Statistics.ImageWhitePoint | app/src/main/java/com/example/imagecoloradapt/MainActivity.kt:191-214 | corrected white point: 255 when no pixel is near white, otherwise the truncated mean of the near-white brightnesses; always in [206,255] |
| Statistics.TallyAppend | app/src/main/java/com/example/imagecoloradapt/MainActivity.kt:195-210 | scanning two parts one after the other adds their sums and their counts |
| Statistics.TallyPermutation | app/src/main/java/com/example/imagecoloradapt/MainActivity.kt:195-210 | any rearrangement of the pixels gives the same sum and count |
| Statistics.WhitePointPermutation | app/src/main/java/com/example/imagecoloradapt/MainActivity.kt:195-213 | any rearrangement of the pixels gives the same white point |
| Statistics.WrappedTally | app/src/main/java/com/example/imagecoloradapt/MainActivity.kt:192-207 | the source's `Int` accumulators stay within the 32-bit range after every step |
| Statistics.WrappedTallyIsWrapped | app/src/main/java/com/example/imagecoloradapt/MainActivity.kt:192-207 | the source's `Int` accumulators equal the exact sum and count reduced modulo 2^32 |
| Statistics.WhitePointAsWritten | app/src/main/java/com/example/imagecoloradapt/MainActivity.kt:191-214 | with 32-bit sums, the white point agrees with the corrected one whenever the exact sum fits in an `Int`, in particular for at most 8,421,504 pixels |
| Statistics.WhitePointAsWrittenPermutation | app/src/main/java/com/example/imagecoloradapt/MainActivity.kt:195-213 | the 32-bit white point also depends only on which pixels occur |
| Statistics.ScanNearWhite | app/src/main/java/com/example/imagecoloradapt/MainActivity.kt:195-210 | the nested x/y scan leaves the 32-bit accumulators of the fold |
| Statistics.WrappedTallyPrefix | app/src/main/java/com/example/imagecoloradapt/MainActivity.kt:204-207 | one more pixel adds its brightness and 1 to the `Int` accumulators, each wrapping, exactly when it is near white |
| Statistics.ScanColumn | app/src/main/java/com/example/imagecoloradapt/MainActivity.kt:196-209 | one column of the inner loop extends the accumulators to the end of that column |
| Statistics.GetImageWhitePoint | app/src/main/java/com/example/imagecoloradapt/MainActivity.kt:191-214 | the scan computes the as-written white point; it is in [206,255] for at most 8,421,504 pixels; it is 255 when no `getPixel(x, y)` is near white |
| Statistics.NoNearWhiteInGrid | app/src/main/java/com/example/imagecoloradapt/MainActivity.kt:195-204 | a grid with no near-white `getPixel(x, y)` has no near-white pixel at any scan position |
| Statistics.AllWhiteTally | app/src/main/java/com/example/imagecoloradapt/MainActivity.kt:204-207 | n pure-white pixels count n and sum 255·n |
| Statistics.AllWhiteStatistics | app/src/main/java/com/example/imagecoloradapt/MainActivity.kt:175-214 | an all-white bitmap has maximum brightness 255 and white point 255 |
| Statistics.WhitePointOverflow | app/src/main/java/com/example/imagecoloradapt/MainActivity.kt:206-213 | 8,421,505 pure-white pixels make the source's white point -254, where the corrected one is 255 |
| Screen.ScreenBrightnessPercentage | app/src/main/java/com/example/imagecoloradapt/MainActivity.kt:121-124 | a setting in [0,255] gives a percentage in [0,100], with 0 giving 0 and 255 giving 100 |
| Screen.PercentageTruncates | app/src/main/java/com/example/imagecoloradapt/MainActivity.kt:123 | without overflow, the percentage's magnitude is the magnitude of raw·100, divided by 255 and rounded down, non-negative for a non-negative setting and non-positive for a non-positive one (settings 1 and 2 give 0) |
| Screen.UnavailablePercentage | app/src/main/java/com/example/imagecoloradapt/MainActivity.kt:122-123 | the fallback setting -1 gives 0% |
| Screen.PercentageMonotone | app/src/main/java/com/example/imagecoloradapt/MainActivity.kt:123 | a larger setting never gives a smaller percentage |
| Transform.CoerceIn | app/src/main/java/com/example/imagecoloradapt/MainActivity.kt:145-147 | the clamped value lies in the range; it is the value itself when already inside, otherwise the nearer bound |
| Transform.ScaleChannel | app/src/main/java/com/example/imagecoloradapt/MainActivity.kt:140-142 | with a zero screen white point the result is `Int.MAX_VALUE`, `Int.MIN_VALUE` or 0 as `c·sb·iwp` is positive, negative or zero (±∞ and NaN through `toInt()`); otherwise its magnitude never exceeds the exact quotient's and a non-zero result has the quotient's sign |
| Transform.ScaleChannelIsRational | app/src/main/java/com/example/imagecoloradapt/MainActivity.kt:140-142 | for a non-zero screen white point, the integer scaling equals `c·(sb/100)·(iwp/swp)` evaluated exactly, truncated toward zero and saturated by `toInt()` |
| Transform.TruncDivIsTruncReal | app/src/main/java/com/example/imagecoloradapt/MainActivity.kt:140 | truncating integer division is `toInt()`'s truncation of the exact quotient |
| Transform.AdjustChannel | app/src/main/java/com/example/imagecoloradapt/MainActivity.kt:140-147 | a scaled and clamped channel lies in [0, maxPixelBrightness] |
| Transform.AdjustPixel | app/src/main/java/com/example/imagecoloradapt/MainActivity.kt:131-150 | every output colour channel is at most `maxPixelBrightness`; for bounds up to 255, alpha is copied and each channel is its scaled, clamped value |
| Transform.AdjustBrightness | app/src/main/java/com/example/imagecoloradapt/MainActivity.kt:126-155 | fails exactly when a non-empty bitmap meets a negative clamp bound; otherwise keeps width, height and pixel count and bounds every colour channel by `maxPixelBrightness`; for bounds up to 255 each output pixel keeps its alpha and has as its red, green and blue the scaled, clamped input channels at the same position |
| Transform.NeutralScale | app/src/main/java/com/example/imagecoloradapt/MainActivity.kt:140-147 | at 100% screen brightness with equal non-zero white points, a channel becomes `min(c, maxPixelBrightness)` (two zero white points give NaN, hence 0, and are not covered) |
| Transform.DarkScreen | app/src/main/java/com/example/imagecoloradapt/MainActivity.kt:140-147 | a screen brightness of 0 or less, with non-negative white points, turns a channel to 0 (a zero screen white point included, through NaN and -∞) |
| Transform.ScaleMonotone | app/src/main/java/com/example/imagecoloradapt/MainActivity.kt:140-147 | for a non-negative image white point and a positive screen white point, a higher screen brightness never lowers an output channel; a negative image white point, such as the overflowed -254, can reverse the order (`Transform.NegativeWhitePointReversesOrder`) |
| Transform.NegativeWhitePointReversesOrder | app/src/main/java/com/example/imagecoloradapt/MainActivity.kt:140-147 | with the image white point -254, percentage -1 gives a channel of 5 where 0% gives 0: the source's scaling is not monotone once the white point is negative |
| Orientation.RotationFor | app/src/main/java/com/example/imagecoloradapt/MainActivity.kt:159-164 | a rotation is chosen exactly for ROTATE_90, ROTATE_180 and ROTATE_270, and it is a quarter, half or three-quarter turn |
| Orientation.RotateBitmap | app/src/main/java/com/example/imagecoloradapt/MainActivity.kt:157-166 | any code that selects no rotation returns the source itself; the others return the platform's rotation by the chosen angle |
| Orientation.RotationTable | app/src/main/java/com/example/imagecoloradapt/MainActivity.kt:159-163 | codes 6, 3 and 8 rotate by 90, 180 and 270 degrees; codes 0, 1, 2, 4, 5 and 7 leave the bitmap unchanged |
| Pipeline.Adapt | app/src/main/java/com/example/imagecoloradapt/MainActivity.kt:112-118 | for a given image white point, the output is the rotated bitmap with each alpha kept and each colour channel scaled by the screen percentage and that white point, then clamped to the unrotated bitmap's maximum brightness |
| Pipeline.AdjustBrightness | app/src/main/java/com/example/imagecoloradapt/MainActivity.kt:108-119 | corrected pipeline (exact white-point sum): a null bitmap yields null and any other yields a bitmap; the output has the rotated bitmap's dimensions and alpha, and no colour channel above the source's maximum brightness |
| Pipeline.AdjustBrightnessAsWritten | app/src/main/java/com/example/imagecoloradapt/MainActivity.kt:108-119 | the pipeline as written, with the 32-bit white point of line 114: null for null, otherwise the rotated bitmap's dimensions and alpha and no colour channel above the maximum brightness |
| Pipeline.AsWrittenAgreesWhenExact | app/src/main/java/com/example/imagecoloradapt/MainActivity.kt:114 | up to 8,421,504 pixels the as-written and the corrected pipeline give the same bitmap |
| Pipeline.AnalysisOrderIrrelevant | app/src/main/java/com/example/imagecoloradapt/MainActivity.kt:112-118 | taking the statistics before the rotation equals taking them after it, for any rotation that rearranges the pixels, in both pipelines |
| Pipeline.OverflowBlanksWhitePhoto | app/src/main/java/com/example/imagecoloradapt/MainActivity.kt:108-150 | 8,421,505 pure-white pixels at setting 255: the as-written pipeline turns every pixel black with alpha kept, the corrected one returns the image unchanged |
| Pipeline.DarkScreenBlanksImage | app/src/main/java/com/example/imagecoloradapt/MainActivity.kt:108-123 | without rotation, a screen setting of 0 or less gives the same dimensions, each alpha kept and every colour channel 0: in the corrected pipeline always, and in the as-written one up to 8,421,504 pixels (`Pipeline.AsWrittenAgreesWhenExact`) |
| Pipeline.GreyPixelAtHalfBrightness | app/src/main/java/com/example/imagecoloradapt/MainActivity.kt:108-150 | a 1x1 pixel (100,100,100) at setting 128 (50%) is scaled to 106 and clamped back to 100 |

## Findings

| source | as written | input that shows it | evidently intended | confidence | as-written member | corrected member |
|---|---|---|---|---|---|---|
| app/src/main/java/com/example/imagecoloradapt/MainActivity.kt:192-213 | `totalBrightness` is an `Int`, so the sum of near-white brightnesses wraps once it passes 2,147,483,647 | a bitmap of 8,421,505 pure-white pixels (one more than fits, fewer than a 12-megapixel photo): the sum wraps to -2,147,483,521 and the white point is -254 | the mean of the near-white brightnesses, 255 here, always in [206,255] | high (arithmetic proved; not executed) | Statistics.WhitePointOverflow | Statistics.ImageWhitePoint |

At a positive screen percentage a negative white point makes the scale
negative, so the transform clamps every colour channel to 0 and the photo
shows black (at a negative percentage the sign flips back and channels
light up, `Transform.NegativeWhitePointReversesOrder`):
`Pipeline.OverflowBlanksWhitePhoto` proves this of the whole as-written
pipeline, `Pipeline.AdjustBrightnessAsWritten`. `Pipeline.AdjustBrightness`
uses the corrected white point, which keeps the sum exact.
`Statistics.WhitePointAsWritten` and `Statistics.GetImageWhitePoint` keep the
source's 32-bit behaviour. They agree with the corrected value up to
8,421,504 pixels, and so do the two pipelines (`Pipeline.AsWrittenAgreesWhenExact`).

## Left out

- The Android glue is not modelled: `onCreate`, the permission requests, `dispatchTakePictureIntent`, `dispatchPickImageIntent` and `onActivityResult` are lifecycle and intent plumbing.
- `getImageOrientation` reads EXIF through `ExifInterface` on a content stream, which is I/O. The orientation code is an input.
- `getImageUriFromBitmap` compresses a JPEG and inserts it into MediaStore, which are storage side effects.
- The `Settings.System.getInt` read is I/O. The raw setting is an input, with -1 standing for unreadable.
- The geometric rotation by `Bitmap.createBitmap` with a `Matrix` and filtering is the platform's. It is a function parameter, and only its being a rearrangement of the pixels is ever assumed (`Pipeline.AnalysisOrderIrrelevant`). So no round-trip property of rotation (two half turns, or a quarter turn each way) is stated.
- IEEE-754 rounding on lines 140-142 is not modelled. The scale is computed with exact rationals, so the real code's `toInt()` may differ by one: for the pipeline's inputs only where the exact value is an integer, and for arbitrary arguments of the five-argument function also where the product exceeds about 3·10^15 and rounding crosses another integer boundary.
- `image.copy(image.config, true)` is not modelled: the output is a new bitmap of the same dimensions. The bitmap's config, premultiplied alpha and a `null` copy result are the platform's.
- Transform.AdjustPixel: for `maxPixelBrightness` above 255 only the channel bounds are stated. Clamped channels wider than 8 bits overlap their neighbours in the packed word, and alpha and exact channel values are then not characterised.
- Transform.AdjustBrightness: alpha preservation and the per-channel values are stated only for `maxPixelBrightness` up to 255, for the same reason. The pipeline always passes at most 255.
- Screen.PercentageTruncates: stated only for settings up to 21,474,836 in magnitude. Beyond that `raw*100` wraps around; the function models the wrap, but no property is claimed there.
- Screen.PercentageMonotone: stated only for settings up to 21,474,836 in magnitude, for the same reason.
- Pipeline.AdjustBrightness: uses the corrected white point, not line 114's 32-bit `getImageWhitePoint`. Once the exact near-white brightness sum exceeds 2,147,483,647 (which takes at least 8,421,505 near-white pixels), line 114's white point is wrong and the two pipelines can differ. 8,421,505 pure-white pixels give -254, which turns the photo black (`Pipeline.OverflowBlanksWhitePhoto`); larger sums can wrap to other values, positive or negative. `Pipeline.AdjustBrightnessAsWritten` is the source's behaviour.
- Pipeline.DarkScreenBlanksImage: stated only for settings down to -21,474,836, for the same reason as Screen.PercentageTruncates, and for the as-written pipeline only up to 8,421,504 pixels, past which its white point can be negative.

=== FILE: argb.dfy ===
/** ARGB colour words: Android keeps a pixel as one `Int` with alpha in bits
    24-31, red in 16-23, green in 8-15 and blue in 0-7. */
module Argb {
  import opened KotlinInt

  /** One 8-bit colour channel. */
  type Channel = x: int | 0 <= x <= 255

  /** A pixel as its four channels. */
  datatype Pixel = Pixel(a: Channel, r: Channel, g: Channel, b: Channel)

  /** `pixel shr 24 and 0xff`: an arithmetic shift is a floor division by a
      power of two, and masking with 0xff keeps the non-negative remainder
      modulo 256. */
  function AlphaOf(w: Int): Channel { (w / 0x100_0000) % 0x100 }

  /** `pixel shr 16 and 0xff`, also what `Color.red` computes. */
  function RedOf(w: Int): Channel { (w / 0x1_0000) % 0x100 }

  /** `pixel shr 8 and 0xff`, also what `Color.green` computes. */
  function GreenOf(w: Int): Channel { (w / 0x100) % 0x100 }

  /** `pixel and 0xff`, also what `Color.blue` computes. */
  function BlueOf(w: Int): Channel { w % 0x100 }

  /** The channels of a colour word: its 32-bit pattern is the positional
      sum of the four bytes. */
  function Unpack(w: Int): (p: Pixel)
    ensures Unsigned(w) == p.a * 0x100_0000 + p.r * 0x1_0000 + p.g * 0x100 + p.b
  {
    UnpackDigits(w);
    Pixel(AlphaOf(w), RedOf(w), GreenOf(w), BlueOf(w))
  }

  /** `alpha shl 24 or (red shl 16) or (green shl 8) or blue`, evaluated left
      to right as Kotlin's infix calls are. Red, green and blue may be any
      non-negative `Int`: wider values spill into the neighbouring channels. */
  function PackChannels(alpha: Channel, red: Int, green: Int, blue: Int): Int
    requires red >= 0 && green >= 0 && blue >= 0
  {
    Or(Or(Or(Shl(alpha, 24), Shl(red, 16)), Shl(green, 8)), blue)
  }

  function Pack(p: Pixel): Int
  {
    PackChannels(p.a, p.r, p.g, p.b)
  }

  lemma Pow2Constants()
    ensures Pow2(8) == 0x100 && Pow2(16) == 0x1_0000 && Pow2(24) == 0x100_0000
  {
  }

  /** Shifting a small non-negative value loses no bits. */
  lemma ShlExact(x: Int, k: nat)
    requires k < 32 && 0 <= x && x * Pow2(k) < MODULUS
    ensures Unsigned(Shl(x, k)) == x * Pow2(k)
  {
    var v := x * Pow2(k);
    MulMonotone(0, x, Pow2(k));
    assert 0 <= v < MODULUS;
    assert Shl(x, k) == Wrap(v);
    UnsignedWrap(v);
  }

  /** OR of a multiple of 2^k with a word below 2^k adds them. */
  lemma OrExact(x: Int, y: Int, m: nat, k: nat)
    requires Unsigned(x) == m * Pow2(k) && Unsigned(y) < Pow2(k)
    requires m * Pow2(k) + Unsigned(y) < MODULUS
    ensures Unsigned(Or(x, y)) == m * Pow2(k) + Unsigned(y)
  {
    BitOrDisjoint(m, Unsigned(y), k);
    UnsignedWrap(m * Pow2(k) + Unsigned(y));
  }

  /** For 8-bit channels the packed word is the positional sum of the bytes. */
  lemma PackedValue(p: Pixel)
    ensures Unsigned(Pack(p)) == p.a * 0x100_0000 + p.r * 0x1_0000 + p.g * 0x100 + p.b
  {
    Pow2Constants();
    var A := p.a * 0x100_0000;
    var R := p.r * 0x1_0000;
    var G := p.g * 0x100;
    ShlExact(p.a, 24);
    ShlExact(p.r, 16);
    ShlExact(p.g, 8);
    var ar := Or(Shl(p.a, 24), Shl(p.r, 16));
    OrExact(Shl(p.a, 24), Shl(p.r, 16), p.a, 24);
    assert Unsigned(ar) == A + R;
    var arg := Or(ar, Shl(p.g, 8));
    OrExact(ar, Shl(p.g, 8), p.a * 0x100 + p.r, 16);
    assert Unsigned(arg) == A + R + G;
    OrExact(arg, p.b, p.a * 0x1_0000 + p.r * 0x100 + p.g, 8);
  }

  lemma ModAddMultiple(x: int, m: int)
    ensures (x + m * 0x100) % 0x100 == x % 0x100
  {
    DivUnique(x + m * 0x100, x / 0x100 + m, x % 0x100, 0x100);
  }

  /** The channel selected by dividing by `d` and masking, for a word that
      is `high * d + low` with `low < d` and `high`'s lowest byte `c`. */
  lemma SelectByte(w: int, high: int, low: int, d: int, c: Channel)
    requires d > 0 && 0 <= low < d && w == high * d + low
    requires high % 0x100 == c
    ensures (w / d) % 0x100 == c
  {
    DivUnique(w, high, low, d);
  }

  /** The byte selected by dividing by `d` and masking, for a word that is
      `(m * 256 + c) * d + low` with `low < d`. */
  lemma ByteOfPositional(w: int, m: int, c: Channel, low: int, d: int)
    requires d > 0 && 0 <= low < d && w == (m * 0x100 + c) * d + low
    ensures (w / d) % 0x100 == c
  {
    ModAddMultiple(c, m);
    SelectByte(w, m * 0x100 + c, low, d, c);
  }

  /** The channels of a word whose unsigned reading is the positional sum
      of the bytes of `p`, for either sign of the word. */
  lemma UnpackPositional(w: Int, p: Pixel, c: int)
    requires c == 0 || c == -1
    requires w == c * MODULUS + p.a * 0x100_0000 + p.r * 0x1_0000 + p.g * 0x100 + p.b
    ensures Unpack(w) == p
  {
    var h24 := c * 0x100 + p.a;
    var h16 := h24 * 0x100 + p.r;
    var h8 := h16 * 0x100 + p.g;
    ByteOfPositional(w, c, p.a, p.r * 0x1_0000 + p.g * 0x100 + p.b, 0x100_0000);
    ByteOfPositional(w, h24, p.r, p.g * 0x100 + p.b, 0x1_0000);
    ByteOfPositional(w, h16, p.g, p.b, 0x100);
    ByteOfPositional(w, h8, p.b, 0, 1);
  }

  /** The four extracted bytes are the base-256 digits of the word's
      unsigned reading, for either sign of the word. */
  lemma UnpackDigits(w: Int)
    ensures Unsigned(w) == AlphaOf(w) * 0x100_0000 + RedOf(w) * 0x1_0000 + GreenOf(w) * 0x100 + BlueOf(w)
  {
    var u := Unsigned(w);
    var k := w / MODULUS;
    assert w == k * MODULUS + u;
    var a := u / 0x100_0000;
    var l24 := u % 0x100_0000;
    var r := l24 / 0x1_0000;
    var l16 := l24 % 0x1_0000;
    var g := l16 / 0x100;
    var b := l16 % 0x100;
    assert a < 0x100 && r < 0x100 && g < 0x100;
    var h24 := k * 0x100 + a;
    var h16 := h24 * 0x100 + r;
    var h8 := h16 * 0x100 + g;
    assert w == h24 * 0x100_0000 + l24;
    assert w == h16 * 0x1_0000 + l16;
    assert w == h8 * 0x100 + b;
    ByteOfPositional(w, k, a, l24, 0x100_0000);
    ByteOfPositional(w, h24, r, l16, 0x1_0000);
    ByteOfPositional(w, h16, g, b, 0x100);
    DivUnique(w, h8, b, 0x100);
  }

  /** An `Int` whose 32-bit pattern reads as `u` is `u` itself, or `u`
      less 2^32 when the sign bit is set. */
  lemma SignedReading(w: Int, u: nat)
    requires Unsigned(w) == u
    ensures u <= MAX_VALUE ==> w == u
    ensures u > MAX_VALUE ==> w == u - MODULUS
  {
    WrapUnsigned(w);
  }

  /** Unpacking a packed pixel gives back its four channels. */
  lemma UnpackPack(p: Pixel)
    ensures Unpack(Pack(p)) == p
  {
    var w := Pack(p);
    var u := p.a * 0x100_0000 + p.r * 0x1_0000 + p.g * 0x100 + p.b;
    PackedValue(p);
    SignedReading(w, u);
    if u <= MAX_VALUE {
      UnpackPositional(w, p, 0);
    } else {
      assert w == u - MODULUS;
      UnpackPositional(w, p, -1);
    }
  }

  /** Every colour word is the packing of exactly one pixel: packing the
      unpacked channels gives the word back. */
  lemma PackUnpack(w: Int)
    ensures Pack(Unpack(w)) == w
  {
    var p := Unpack(w);
    PackedValue(p);
    assert Unsigned(Pack(p)) == Unsigned(w);
    WrapUnsigned(Pack(p));
    WrapUnsigned(w);
  }
}

=== FILE: bitmap.dfy ===
/** A decoded bitmap: its dimensions and its pixels. */
module Bitmap {
  import opened Argb

  /** The pixels are listed in the order the source's scans visit them:
      column `x` outer, row `y` inner, so pixel (x, y) sits at
      `x * height + y`. */
  datatype Image = Image(width: nat, height: nat, pixels: seq<Pixel>)

  /** An image whose pixel count matches its dimensions, as every Android
      `Bitmap` does. */
  type Bitmap = img: Image | |img.pixels| == img.width * img.height
    witness Image(0, 0, [])

  /** The position of pixel (x, y) in the scan order. */
  function ScanIndex(img: Bitmap, x: nat, y: nat): (k: nat)
    requires x < img.width && y < img.height
    ensures k < |img.pixels|
    ensures k / img.height == x && k % img.height == y
  {
    ScanIndexBound(x, y, img.width, img.height);
    KotlinInt.DivUnique(x * img.height + y, x, y, img.height);
    x * img.height + y
  }

  /** `image.getPixel(x, y)`. */
  function GetPixel(img: Bitmap, x: nat, y: nat): Pixel
    requires x < img.width && y < img.height
  {
    img.pixels[ScanIndex(img, x, y)]
  }

  /** Pixel (x, y) is entry `y` of column `x`, which starts at `start`. */
  lemma PixelInColumn(img: Bitmap, x: nat, y: nat, start: nat)
    requires x < img.width && y < img.height && start == x * img.height
    ensures start + y < |img.pixels| && GetPixel(img, x, y) == img.pixels[start + y]
  {
    ScanIndexBound(x, y, img.width, img.height);
  }

  lemma ScanIndexBound(x: nat, y: nat, w: nat, h: nat)
    requires x < w && y < h
    ensures x * h + y < w * h
  {
    KotlinInt.MulMonotone(x + 1, w, h);
  }

  /** Finishing column `x` of a scan reaches the start of column `x + 1`. */
  lemma NextColumn(x: nat, w: nat, h: nat)
    requires x < w
    ensures 0 <= x * h && (x + 1) * h == x * h + h <= w * h
  {
    KotlinInt.MulMonotone(0, x, h);
    KotlinInt.MulMonotone(x + 1, w, h);
  }

  /** Two images hold the same pixels, each as often, in any arrangement:
      what any rotation or transposition of the grid keeps. */
  predicate SamePixels(a: Image, b: Image)
  {
    multiset(a.pixels) == multiset(b.pixels)
  }
}

=== FILE: kotlin_int.dfy ===
/** Kotlin's 32-bit `Int`: two's-complement wrap-around and division that
    truncates toward zero, written out over Dafny's unbounded integers. */
module KotlinInt {

  const MIN_VALUE: int := -0x8000_0000
  const MAX_VALUE: int := 0x7fff_ffff
  const MODULUS: int := 0x1_0000_0000

  /** The values a Kotlin `Int` can hold. */
  type Int = x: int | MIN_VALUE <= x <= MAX_VALUE

  /** The `Int` that the exact value `x` becomes after 32-bit wrap-around. */
  function Wrap(x: int): (r: Int)
    ensures (x - r) % MODULUS == 0
    ensures MIN_VALUE <= x <= MAX_VALUE ==> r == x
  {
    (x - MIN_VALUE) % MODULUS + MIN_VALUE
  }

  /** Wrapping an intermediate sum does not change the wrapped total. */
  lemma WrapAdd(x: int, y: int)
    ensures Wrap(Wrap(x) + y) == Wrap(x + y)
  {
    var k := (x - Wrap(x)) / MODULUS;
    assert x == Wrap(x) + k * MODULUS;
    ShiftByModulus(Wrap(x) + y, k);
  }

  lemma ShiftByModulus(x: int, k: int)
    ensures Wrap(x + k * MODULUS) == Wrap(x)
  {
    assert (x + k * MODULUS - MIN_VALUE) % MODULUS == (x - MIN_VALUE) % MODULUS;
  }

  /** Integer division truncating toward zero, as Kotlin's `/` on whole
      numbers (before the 32-bit result is wrapped). */
  function TruncDiv(a: int, b: int): (q: int)
    requires b != 0
    ensures Abs(q) == Abs(a) / Abs(b)
    ensures (a >= 0) == (b > 0) ==> q >= 0
    ensures (a >= 0) != (b > 0) ==> q <= 0
  {
    QuotientOfNaturals(Abs(a), Abs(b));
    var magnitude := Abs(a) / Abs(b);
    if (a >= 0) == (b > 0) then magnitude else -magnitude
  }

  /** The quotient of naturals is a natural. Stated separately because
      `TruncDiv`'s sign rules do not verify without it in scope. */
  lemma QuotientOfNaturals(x: nat, y: nat)
    requires y > 0
    ensures x / y >= 0
  {
  }

  function Abs(x: int): nat
  {
    if x < 0 then -x else x
  }

  /** Kotlin's `a / b` on `Int` operands; only `MIN_VALUE / -1` wraps. */
  function Div(a: Int, b: Int): (q: Int)
    requires b != 0
    ensures b != -1 || a != MIN_VALUE ==> q == TruncDiv(a, b)
  {
    assert b != -1 || a != MIN_VALUE ==> MIN_VALUE <= TruncDiv(a, b) <= MAX_VALUE by {
      if b != -1 || a != MIN_VALUE {
        TruncDivInRange(a, b);
      }
    }
    Wrap(TruncDiv(a, b))
  }

  /** Apart from `MIN_VALUE / -1`, the quotient of two `Int`s is an `Int`. */
  lemma TruncDivInRange(a: Int, b: Int)
    requires b != 0 && (b != -1 || a != MIN_VALUE)
    ensures MIN_VALUE <= TruncDiv(a, b) <= MAX_VALUE
  {
    var x, y := Abs(a), Abs(b);
    QuotientBound(x, y, 1);
    if x / y > MAX_VALUE {
      if y > 1 {
        QuotientBound(x, y, 2);
        assert false;
      }
      assert a == MIN_VALUE && b == 1;
    }
  }

  /** Dividing by at least `c` leaves at most a `c`-th. */
  lemma QuotientBound(x: nat, y: nat, c: nat)
    requires 1 <= c <= y
    ensures (x / y) * c <= x
  {
    var q := x / y;
    assert x == q * y + x % y;
    MulMonotone(c, y, q);
    assert q * c == c * q;
  }

  /** Truncation toward zero rounds a negative quotient up, unlike Dafny's
      Euclidean `/`: -100 / 255 is 0, not -1. */
  lemma TruncDivOfSmallNegative(a: int, b: int)
    requires b > 0 && -b < a <= 0
    ensures TruncDiv(a, b) == 0
  {
  }

  /** Truncating division by a positive divisor is monotone in the dividend. */
  lemma TruncDivMonotone(a1: int, a2: int, b: int)
    requires b > 0 && a1 <= a2
    ensures TruncDiv(a1, b) <= TruncDiv(a2, b)
  {
    if a1 >= 0 {
      FloorDivMonotone(a1, a2, b);
    } else if a2 < 0 {
      FloorDivMonotone(-a2, -a1, b);
    }
  }

  lemma FloorDivMonotone(x: int, y: int, b: int)
    requires b > 0 && x <= y
    ensures x / b <= y / b
  {
    var qx, qy := x / b, y / b;
    assert x == qx * b + x % b && 0 <= x % b < b;
    assert y == qy * b + y % b && 0 <= y % b < b;
    if qx > qy {
      MulMonotone(qy + 1, qx, b);
    }
  }

  /** Euclidean division is determined by any quotient-remainder pair. */
  lemma DivUnique(x: int, q: int, r: int, d: int)
    requires d > 0 && 0 <= r < d && x == q * d + r
    ensures x / d == q && x % d == r
  {
    var q', r' := x / d, x % d;
    assert x == q' * d + r' && 0 <= r' < d;
    if q' > q {
      MulMonotone(q + 1, q', d);
      assert false;
    } else if q' < q {
      MulMonotone(q' + 1, q, d);
      assert false;
    }
  }

  lemma MulMonotone(a: int, c: int, b: int)
    requires a <= c && b >= 0
    ensures a * b <= c * b
  {
  }

  /** The 32-bit pattern of an `Int`, read as an unsigned number. */
  function Unsigned(x: int): (u: nat)
    ensures u < MODULUS
    ensures 0 <= x < MODULUS ==> u == x
  {
    x % MODULUS
  }

  /** An `Int` and its unsigned reading share their bit pattern. */
  lemma WrapUnsigned(x: int)
    ensures Wrap(Unsigned(x)) == Wrap(x)
  {
    var k := (x - Unsigned(x)) / MODULUS;
    assert x == Unsigned(x) + k * MODULUS;
    ShiftByModulus(Unsigned(x), k);
  }

  lemma UnsignedWrap(x: int)
    ensures Unsigned(Wrap(x)) == Unsigned(x)
  {
    var w := Wrap(x);
    var k := (x - w) / MODULUS;
    assert x == w + k * MODULUS;
    DivUnique(x, w / MODULUS + k, w % MODULUS, MODULUS);
  }

  /** 2^k; never 0, so it can divide. */
  function Pow2(k: nat): (p: nat)
    ensures p >= 1
  {
    if k == 0 then 1 else 2 * Pow2(k - 1)
  }

  /** Bitwise OR of two non-negative numbers, one bit at a time. */
  function BitOr(x: nat, y: nat): nat
    decreases x + y
  {
    if x == 0 then y
    else if y == 0 then x
    else 2 * BitOr(x / 2, y / 2) + (if x % 2 == 1 || y % 2 == 1 then 1 else 0)
  }

  /** OR of a multiple of 2^k with a number below 2^k is their sum: the bits
      do not overlap. */
  lemma {:induction false} BitOrDisjoint(m: nat, y: nat, k: nat)
    requires y < Pow2(k)
    ensures BitOr(m * Pow2(k), y) == m * Pow2(k) + y
  {
    var x := m * Pow2(k);
    if k == 0 || m == 0 || y == 0 {
    } else {
      var half := m * Pow2(k - 1);
      assert x == 2 * half;
      assert x / 2 == half && x % 2 == 0;
      BitOrDisjoint(m, y / 2, k - 1);
      assert BitOr(x, y) == 2 * BitOr(half, y / 2) + y % 2;
    }
  }

  /** Kotlin's `x shl k` on `Int`: the bits shifted past bit 31 are lost. */
  function Shl(x: Int, k: nat): Int
    requires k < 32
  {
    Wrap(x * Pow2(k))
  }

  /** Kotlin's `x or y` on `Int`, over the two 32-bit patterns. */
  function Or(x: Int, y: Int): Int
  {
    Wrap(BitOr(Unsigned(x), Unsigned(y)))
  }
}

=== FILE: orientation.dfy ===
/** `rotateBitmap`: the EXIF Orientation tag (0x0112, Exif 2.3, JEITA
    CP-3451) selects a clockwise rotation. Only the three pure rotations are
    acted on; every other code, mirrored ones included, leaves the bitmap
    as it is. */
module Orientation {
  import opened Bitmap

  const ORIENTATION_UNDEFINED: int := 0
  const ORIENTATION_NORMAL: int := 1
  const ORIENTATION_FLIP_HORIZONTAL: int := 2
  const ORIENTATION_ROTATE_180: int := 3
  const ORIENTATION_FLIP_VERTICAL: int := 4
  const ORIENTATION_TRANSPOSE: int := 5
  const ORIENTATION_ROTATE_90: int := 6
  const ORIENTATION_TRANSVERSE: int := 7
  const ORIENTATION_ROTATE_270: int := 8

  /** What the `when` on the orientation decides. */
  datatype Rotation = Keep | Rotate(degrees: int)

  function RotationFor(orientation: int): (r: Rotation)
    ensures r.Rotate? <==>
      orientation == ORIENTATION_ROTATE_90 || orientation == ORIENTATION_ROTATE_180 ||
      orientation == ORIENTATION_ROTATE_270
    ensures r.Rotate? ==> r.degrees == 90 || r.degrees == 180 || r.degrees == 270
  {
    if orientation == ORIENTATION_ROTATE_90 then Rotate(90)
    else if orientation == ORIENTATION_ROTATE_180 then Rotate(180)
    else if orientation == ORIENTATION_ROTATE_270 then Rotate(270)
    else Keep
  }

  /** `rotateBitmap(source, orientation)`. The resampling of
      `Bitmap.createBitmap` with a rotation matrix is the platform's: it is
      the parameter `rotate`, given the angle in degrees. */
  function RotateBitmap(source: Bitmap, orientation: int, rotate: (Bitmap, int) -> Bitmap): (r: Bitmap)
    ensures RotationFor(orientation).Keep? ==> r == source
    ensures RotationFor(orientation).Rotate? ==> r == rotate(source, RotationFor(orientation).degrees)
  {
    match RotationFor(orientation)
    case Keep => source
    case Rotate(degrees) => rotate(source, degrees)
  }

  /** The quarter turn each rotating code asks for, and the codes that are
      left alone whatever the platform would do. */
  lemma RotationTable(source: Bitmap, rotate: (Bitmap, int) -> Bitmap)
    ensures RotateBitmap(source, ORIENTATION_ROTATE_90, rotate) == rotate(source, 90)
    ensures RotateBitmap(source, ORIENTATION_ROTATE_180, rotate) == rotate(source, 180)
    ensures RotateBitmap(source, ORIENTATION_ROTATE_270, rotate) == rotate(source, 270)
    ensures RotateBitmap(source, ORIENTATION_UNDEFINED, rotate) == source
    ensures RotateBitmap(source, ORIENTATION_NORMAL, rotate) == source
    ensures RotateBitmap(source, ORIENTATION_FLIP_HORIZONTAL, rotate) == source
    ensures RotateBitmap(source, ORIENTATION_FLIP_VERTICAL, rotate) == source
    ensures RotateBitmap(source, ORIENTATION_TRANSPOSE, rotate) == source
    ensures RotateBitmap(source, ORIENTATION_TRANSVERSE, rotate) == source
  {
  }
}

=== FILE: pipeline.dfy ===
/** The two-argument `adjustBrightness`: the statistics of the bitmap as
    decoded, the screen percentage, and the transform applied to the
    rotated bitmap. */
module Pipeline {
  import opened KotlinInt
  import opened Argb
  import opened Bitmap
  import opened Statistics
  import opened Screen
  import opened Orientation
  import Transform

  /** The display's assumed white level. */
  const SCREEN_WHITE_POINT: int := 120

  /** A possibly absent bitmap, as Kotlin's `Bitmap?`. */
  datatype Option<T> = None | Some(value: T)

  /** The body of `adjustBrightness` for a given image white point:
      `getMaxPixelBrightness(image)` of the bitmap as decoded and
      `getScreenBrightnessPercentage()` drive `adjustBrightness` on
      `rotateBitmap(image, orientation)`. The clamp bound is never negative, so the
      transform always succeeds. */
  function Adapt(image: Bitmap, orientation: int, rawBrightness: Int,
                 rotate: (Bitmap, int) -> Bitmap, imageWhitePoint: Int): (r: Bitmap)
    ensures
      var rotated := RotateBitmap(image, orientation, rotate);
      var m := MaxBrightness(image.pixels);
      var sb := ScreenBrightnessPercentage(rawBrightness);
      r.width == rotated.width && r.height == rotated.height &&
      |r.pixels| == |rotated.pixels| &&
      forall i :: 0 <= i < |r.pixels| ==>
        r.pixels[i].a == rotated.pixels[i].a &&
        r.pixels[i].r == Transform.AdjustChannel(rotated.pixels[i].r, m, sb, imageWhitePoint, SCREEN_WHITE_POINT) &&
        r.pixels[i].g == Transform.AdjustChannel(rotated.pixels[i].g, m, sb, imageWhitePoint, SCREEN_WHITE_POINT) &&
        r.pixels[i].b == Transform.AdjustChannel(rotated.pixels[i].b, m, sb, imageWhitePoint, SCREEN_WHITE_POINT)
  {
    Transform.AdjustBrightness(RotateBitmap(image, orientation, rotate), MaxBrightness(image.pixels),
      ScreenBrightnessPercentage(rawBrightness), imageWhitePoint, SCREEN_WHITE_POINT).image
  }

  /** `adjustBrightness(image, orientation)` with the white point whose sum
      cannot overflow. The screen-brightness setting is the input
      `rawBrightness` and the platform's rotation the input `rotate`. */
  function AdjustBrightness(image: Option<Bitmap>, orientation: int, rawBrightness: Int,
                            rotate: (Bitmap, int) -> Bitmap): (r: Option<Bitmap>)
    ensures r.None? <==> image.None?
    ensures r.Some? ==>
      var rotated := RotateBitmap(image.value, orientation, rotate);
      r.value.width == rotated.width && r.value.height == rotated.height &&
      |r.value.pixels| == |rotated.pixels| &&
      forall i :: 0 <= i < |r.value.pixels| ==>
        r.value.pixels[i].a == rotated.pixels[i].a &&
        r.value.pixels[i].r <= MaxBrightness(image.value.pixels) &&
        r.value.pixels[i].g <= MaxBrightness(image.value.pixels) &&
        r.value.pixels[i].b <= MaxBrightness(image.value.pixels)
  {
    if image.None? then None
    else Some(Adapt(image.value, orientation, rawBrightness, rotate, ImageWhitePoint(image.value.pixels)))
  }

  /** `adjustBrightness(image, orientation)` exactly as written: the white
      point is `getImageWhitePoint(image)`, whose sums are 32-bit. */
  function AdjustBrightnessAsWritten(image: Option<Bitmap>, orientation: int, rawBrightness: Int,
                                     rotate: (Bitmap, int) -> Bitmap): (r: Option<Bitmap>)
    ensures r.None? <==> image.None?
    ensures r.Some? ==>
      var rotated := RotateBitmap(image.value, orientation, rotate);
      r.value.width == rotated.width && r.value.height == rotated.height &&
      |r.value.pixels| == |rotated.pixels| &&
      forall i :: 0 <= i < |r.value.pixels| ==>
        r.value.pixels[i].a == rotated.pixels[i].a &&
        r.value.pixels[i].r <= MaxBrightness(image.value.pixels) &&
        r.value.pixels[i].g <= MaxBrightness(image.value.pixels) &&
        r.value.pixels[i].b <= MaxBrightness(image.value.pixels)
  {
    if image.None? then None
    else Some(Adapt(image.value, orientation, rawBrightness, rotate, WhitePointAsWritten(image.value.pixels)))
  }

  /** Up to 8,421,504 pixels the source's pipeline and the corrected one
      produce the same bitmap. */
  lemma AsWrittenAgreesWhenExact(image: Option<Bitmap>, orientation: int, rawBrightness: Int,
                                 rotate: (Bitmap, int) -> Bitmap)
    requires image.Some? ==> |image.value.pixels| <= MAX_EXACT_PIXELS
    ensures AdjustBrightnessAsWritten(image, orientation, rawBrightness, rotate)
      == AdjustBrightness(image, orientation, rawBrightness, rotate)
  {
  }

  /** The statistics are taken before the rotation, yet any rotation that
      only rearranges the pixels gives the same result as analysing the
      rotated bitmap itself, in the corrected and the as-written pipeline
      alike. */
  lemma AnalysisOrderIrrelevant(image: Bitmap, orientation: int, rawBrightness: Int,
                                rotate: (Bitmap, int) -> Bitmap)
    requires SamePixels(RotateBitmap(image, orientation, rotate), image)
    ensures
      var rotated := RotateBitmap(image, orientation, rotate);
      AdjustBrightness(Some(image), orientation, rawBrightness, rotate)
        == Some(Transform.AdjustBrightness(rotated, MaxBrightness(rotated.pixels),
             ScreenBrightnessPercentage(rawBrightness), ImageWhitePoint(rotated.pixels),
             SCREEN_WHITE_POINT).image)
    ensures
      var rotated := RotateBitmap(image, orientation, rotate);
      AdjustBrightnessAsWritten(Some(image), orientation, rawBrightness, rotate)
        == Some(Transform.AdjustBrightness(rotated, MaxBrightness(rotated.pixels),
             ScreenBrightnessPercentage(rawBrightness), WhitePointAsWritten(rotated.pixels),
             SCREEN_WHITE_POINT).image)
  {
    var rotated := RotateBitmap(image, orientation, rotate);
    MaxBrightnessPermutation(image.pixels, rotated.pixels);
    WhitePointPermutation(image.pixels, rotated.pixels);
    WhitePointAsWrittenPermutation(image.pixels, rotated.pixels);
  }

  /** A photo of 8,421,505 pure-white pixels at full screen brightness: the
      source's white point is -254, the scale negative, and every colour
      channel is clamped to 0, so the photo shows black; the corrected
      pipeline leaves it white. */
  lemma OverflowBlanksWhitePhoto(orientation: int, rotate: (Bitmap, int) -> Bitmap)
    requires RotationFor(orientation).Keep?
    ensures
      var n := MAX_EXACT_PIXELS + 1;
      var image: Bitmap := Image(n, 1, AllWhite(n));
      var r := AdjustBrightnessAsWritten(Some(image), orientation, 255, rotate);
      r.Some? && |r.value.pixels| == n &&
      forall i :: 0 <= i < n ==> r.value.pixels[i] == Pixel(255, 0, 0, 0)
    ensures
      var n := MAX_EXACT_PIXELS + 1;
      var image: Bitmap := Image(n, 1, AllWhite(n));
      AdjustBrightness(Some(image), orientation, 255, rotate) == Some(image)
  {
    var n := MAX_EXACT_PIXELS + 1;
    var image: Bitmap := Image(n, 1, AllWhite(n));
    AllWhiteStatistics(n);
    WhitePointOverflow();
    assert ScreenBrightnessPercentage(255) == 100;
    assert Transform.AdjustChannel(255, 255, 100, -254, SCREEN_WHITE_POINT) == 0;
    assert Transform.AdjustChannel(255, 255, 100, 255, SCREEN_WHITE_POINT) == 255;
    var fixed := Adapt(image, orientation, 255, rotate, 255);
    assert fixed.pixels == image.pixels;
  }

  /** Without a rotation the output has the input's dimensions, and a dark
      screen turns every colour channel off: always in the corrected
      pipeline, and in the as-written one while the white-point sum is
      exact. Past that the as-written white point can be negative and a
      negative percentage then lights channels up
      (`Transform.NegativeWhitePointReversesOrder`). */
  lemma DarkScreenBlanksImage(image: Bitmap, orientation: int, rawBrightness: Int,
                              rotate: (Bitmap, int) -> Bitmap)
    requires RotationFor(orientation).Keep?
    requires -MAX_EXACT_BRIGHTNESS <= rawBrightness <= 0
    ensures
      var r := AdjustBrightness(Some(image), orientation, rawBrightness, rotate);
      r.Some? && r.value.width == image.width && r.value.height == image.height &&
      forall i :: 0 <= i < |r.value.pixels| ==>
        r.value.pixels[i] == Pixel(image.pixels[i].a, 0, 0, 0)
    ensures |image.pixels| <= MAX_EXACT_PIXELS ==>
      var r := AdjustBrightnessAsWritten(Some(image), orientation, rawBrightness, rotate);
      r.Some? && r.value.width == image.width && r.value.height == image.height &&
      forall i :: 0 <= i < |r.value.pixels| ==>
        r.value.pixels[i] == Pixel(image.pixels[i].a, 0, 0, 0)
  {
    if |image.pixels| <= MAX_EXACT_PIXELS {
      AsWrittenAgreesWhenExact(Some(image), orientation, rawBrightness, rotate);
    }
    var sb := ScreenBrightnessPercentage(rawBrightness);
    assert sb <= 0 by {
      PercentageTruncates(rawBrightness);
    }
    var m := MaxBrightness(image.pixels);
    var w := ImageWhitePoint(image.pixels);
    var r := AdjustBrightness(Some(image), orientation, rawBrightness, rotate);
    forall i | 0 <= i < |r.value.pixels|
      ensures r.value.pixels[i] == Pixel(image.pixels[i].a, 0, 0, 0)
    {
      var p := image.pixels[i];
      Transform.DarkScreen(p.r, m, sb, w, SCREEN_WHITE_POINT);
      Transform.DarkScreen(p.g, m, sb, w, SCREEN_WHITE_POINT);
      Transform.DarkScreen(p.b, m, sb, w, SCREEN_WHITE_POINT);
    }
  }

  /** A 1x1 grey pixel (100, 100, 100) at half screen brightness: no pixel
      is near white, so the white point is 255, the scale is
      0.5 * 255 / 120 and the channel, 106, is clamped back to the image's
      own maximum, 100. */
  lemma GreyPixelAtHalfBrightness(orientation: int, rotate: (Bitmap, int) -> Bitmap)
    requires RotationFor(orientation).Keep?
    ensures
      var image: Bitmap := Image(1, 1, [Pixel(255, 100, 100, 100)]);
      AdjustBrightness(Some(image), orientation, 128, rotate) == Some(image)
  {
    var grey := Pixel(255, 100, 100, 100);
    var image: Bitmap := Image(1, 1, [grey]);
    assert MaxBrightness([grey]) == 100;
    assert ImageWhitePoint([grey]) == 255 by {
      assert !IsNearWhite(grey);
    }
    assert ScreenBrightnessPercentage(128) == 50;
    assert Transform.ScaleChannel(100, 50, 255, SCREEN_WHITE_POINT) == 106;
    assert Transform.AdjustPixel(grey, 100, 50, 255, SCREEN_WHITE_POINT) == grey;
    var adjusted := Transform.AdjustBrightness(image, 100, 50, 255, SCREEN_WHITE_POINT);
    assert adjusted.image.pixels == [grey];
    assert RotateBitmap(image, orientation, rotate) == image;
  }
}

=== FILE: screen.dfy ===
/** The screen-brightness percentage: the system setting (0-255, or the
    sentinel -1 when it cannot be read) scaled to 0-100. */
module Screen {
  import opened KotlinInt

  /** What the settings lookup returns when the setting is missing. */
  const UNAVAILABLE: int := -1

  /** The largest setting whose `brightness * 100` fits in an `Int`. */
  const MAX_EXACT_BRIGHTNESS: int := 21_474_836

  /** `(brightness * 100) / 255` on Kotlin `Int`s. */
  function ScreenBrightnessPercentage(brightness: Int): (percent: Int)
    ensures 0 <= brightness <= 255 ==> 0 <= percent <= 100
    ensures brightness == 0 ==> percent == 0
    ensures brightness == 255 ==> percent == 100
  {
    Div(Wrap(brightness * 100), 255)
  }

  /** Within the range where `brightness * 100` does not overflow, the
      percentage is the exact quotient rounded toward zero, never to the
      nearest integer. */
  lemma PercentageTruncates(brightness: Int)
    requires -MAX_EXACT_BRIGHTNESS <= brightness <= MAX_EXACT_BRIGHTNESS
    ensures Abs(ScreenBrightnessPercentage(brightness)) == Abs(brightness * 100) / 255
    ensures brightness >= 0 ==> ScreenBrightnessPercentage(brightness) >= 0
    ensures brightness <= 0 ==> ScreenBrightnessPercentage(brightness) <= 0
  {
  }

  /** The unreadable setting yields 0%: truncation sends -100/255 to 0. */
  lemma UnavailablePercentage()
    ensures ScreenBrightnessPercentage(UNAVAILABLE) == 0
  {
    TruncDivOfSmallNegative(-100, 255);
  }

  /** A brighter setting never gives a lower percentage. */
  lemma PercentageMonotone(b1: Int, b2: Int)
    requires -MAX_EXACT_BRIGHTNESS <= b1 <= b2 <= MAX_EXACT_BRIGHTNESS
    ensures ScreenBrightnessPercentage(b1) <= ScreenBrightnessPercentage(b2)
  {
    TruncDivMonotone(b1 * 100, b2 * 100, 255);
  }
}

=== FILE: statistics.dfy ===
/** The two image statistics the brightness adaptation reads: the brightest
    pixel's average level and the white point estimated from near-white
    pixels. */
module Statistics {
  import opened KotlinInt
  import opened Argb
  import opened Bitmap

  /** How far below 255 a channel may fall for its pixel to count as white. */
  const THRESHOLD: int := 50

  /** Returned when no pixel is near white. */
  const DEFAULT_WHITE_POINT: int := 255

  /** `(red + green + blue) / 3`: the truncated average of the colour channels. */
  function Brightness(p: Pixel): (v: int)
    ensures 0 <= v <= 255
    ensures 3 * v <= p.r + p.g + p.b < 3 * v + 3
  {
    (p.r + p.g + p.b) / 3
  }

  // ---------------------------------------------------------------------
  // Maximum pixel brightness
  // ---------------------------------------------------------------------

  /** The running maximum after scanning `s` in order, starting from 0 and
      replacing it whenever a pixel is strictly brighter. */
  function MaxBrightness(s: seq<Pixel>): (m: int)
    ensures 0 <= m <= 255
    ensures forall i :: 0 <= i < |s| ==> Brightness(s[i]) <= m
    ensures |s| == 0 ==> m == 0
  {
    if |s| == 0 then 0
    else
      var m := MaxBrightness(s[..|s| - 1]);
      var brightness := Brightness(s[|s| - 1]);
      if brightness > m then brightness else m
  }

  /** `getMaxPixelBrightness`: the column-by-column scan of the bitmap. */
  method GetMaxPixelBrightness(image: Bitmap) returns (maxBrightness: int)
    ensures maxBrightness == MaxBrightness(image.pixels)
    ensures 0 <= maxBrightness <= 255
    ensures image.width == 0 || image.height == 0 ==> maxBrightness == 0
    ensures forall x, y :: 0 <= x < image.width && 0 <= y < image.height ==>
      Brightness(GetPixel(image, x, y)) <= maxBrightness
  {
    maxBrightness := 0;
    for x := 0 to image.width
      invariant x * image.height <= |image.pixels|
      invariant maxBrightness == MaxBrightness(image.pixels[..x * image.height])
    {
      NextColumn(x, image.width, image.height);
      maxBrightness := MaxOverColumn(image, x, maxBrightness);
    }
    assert image.pixels[..image.width * image.height] == image.pixels;
    MaxBrightnessBoundsGrid(image);
  }

  /** The inner loop of `getMaxPixelBrightness`, over column `x`. */
  method MaxOverColumn(image: Bitmap, x: nat, current: int) returns (next: int)
    requires x < image.width
    requires current == MaxBrightness(image.pixels[..x * image.height])
    ensures (x + 1) * image.height <= |image.pixels|
    ensures next == MaxBrightness(image.pixels[..(x + 1) * image.height])
  {
    var s := image.pixels;
    next := current;
    NextColumn(x, image.width, image.height);
    var start: nat := x * image.height;
    var k: nat := start;
    for y := 0 to image.height
      invariant k == start + y
      invariant next == MaxBrightness(s[..k])
    {
      PixelInColumn(image, x, y, start);
      var pixel := GetPixel(image, x, y);
      MaxBrightnessPrefix(s, k);
      var brightness := Brightness(pixel);
      if brightness > next {
        next := brightness;
      }
      k := k + 1;
    }
  }

  /** One more pixel of the scan: the maximum is replaced only by a
      strictly brighter pixel. */
  lemma MaxBrightnessPrefix(s: seq<Pixel>, k: nat)
    requires k < |s|
    ensures MaxBrightness(s[..k + 1]) ==
      if Brightness(s[k]) > MaxBrightness(s[..k]) then Brightness(s[k]) else MaxBrightness(s[..k])
  {
    assert s[..k + 1][..k] == s[..k];
  }

  /** No pixel of the grid is brighter than the maximum. */
  lemma MaxBrightnessBoundsGrid(image: Bitmap)
    ensures forall x, y :: 0 <= x < image.width && 0 <= y < image.height ==>
      Brightness(GetPixel(image, x, y)) <= MaxBrightness(image.pixels)
  {
    forall x, y | 0 <= x < image.width && 0 <= y < image.height
      ensures Brightness(GetPixel(image, x, y)) <= MaxBrightness(image.pixels)
    {
      var i := ScanIndex(image, x, y);
      assert GetPixel(image, x, y) == image.pixels[i];
    }
  }

  /** A non-empty scan's maximum is the brightness of one of its pixels. */
  lemma {:induction false} MaxBrightnessAttained(s: seq<Pixel>)
    requires |s| > 0
    ensures exists i :: 0 <= i < |s| && Brightness(s[i]) == MaxBrightness(s)
  {
    var last := |s| - 1;
    if Brightness(s[last]) <= MaxBrightness(s[..last]) && last > 0 {
      MaxBrightnessAttained(s[..last]);
      var i :| 0 <= i < last && Brightness(s[..last][i]) == MaxBrightness(s[..last]);
      assert s[..last][i] == s[i];
    } else {
      assert Brightness(s[last]) == MaxBrightness(s);
    }
  }

  /** The maximum depends only on which pixels occur, not on where. */
  lemma MaxBrightnessPermutation(s: seq<Pixel>, t: seq<Pixel>)
    requires multiset(s) == multiset(t)
    ensures MaxBrightness(s) == MaxBrightness(t)
  {
    if |s| == 0 {
      assert |t| == |multiset(t)| == 0;
    } else {
      assert |t| == |multiset(t)| == |multiset(s)| == |s|;
      MaxBrightnessAttained(s);
      MaxBrightnessAttained(t);
      var i :| 0 <= i < |s| && Brightness(s[i]) == MaxBrightness(s);
      var j :| 0 <= j < |t| && Brightness(t[j]) == MaxBrightness(t);
      assert s[i] in multiset(t);
      assert t[j] in multiset(s);
    }
  }

  // ---------------------------------------------------------------------
  // White point
  // ---------------------------------------------------------------------

  /** Every colour channel is above `255 - THRESHOLD`. */
  predicate IsNearWhite(p: Pixel)
  {
    p.r > 255 - THRESHOLD && p.g > 255 - THRESHOLD && p.b > 255 - THRESHOLD
  }

  /** The two accumulators of the white-point scan: `totalBrightness` and
      `totalPixels`. */
  datatype Tally = Tally(totalBrightness: int, totalPixels: int)

  /** The exact accumulators after scanning `s`: the sum of the brightness
      of the near-white pixels, and how many there are. */
  function NearWhiteTally(s: seq<Pixel>): (t: Tally)
    ensures 0 <= t.totalPixels <= |s|
    ensures 206 * t.totalPixels <= t.totalBrightness <= 255 * t.totalPixels
    ensures t.totalPixels == 0 <==> forall i :: 0 <= i < |s| ==> !IsNearWhite(s[i])
  {
    if |s| == 0 then Tally(0, 0)
    else
      var t := NearWhiteTally(s[..|s| - 1]);
      var pixel := s[|s| - 1];
      assert forall i :: 0 <= i < |s| - 1 ==> s[..|s| - 1][i] == s[i];
      if IsNearWhite(pixel) then Tally(t.totalBrightness + Brightness(pixel), t.totalPixels + 1)
      else t
  }

  /** A truncated mean of values in [lo, hi] lies in [lo, hi]. */
  lemma MeanBounds(sum: int, count: int, lo: int, hi: int)
    requires count > 0 && lo * count <= sum <= hi * count
    ensures lo <= sum / count <= hi
    ensures (sum / count) * count <= sum < (sum / count + 1) * count
  {
    var q := sum / count;
    assert q * count <= sum < q * count + count;
    if q < lo {
      MulMonotone(q + 1, lo, count);
    }
    if q > hi {
      MulMonotone(hi + 1, q, count);
    }
  }

  /** `getImageWhitePoint` with its sums kept exact: the truncated mean
      brightness of the near-white pixels, or 255 when there are none. */
  function ImageWhitePoint(s: seq<Pixel>): (w: int)
    ensures 206 <= w <= 255
    ensures (forall i :: 0 <= i < |s| ==> !IsNearWhite(s[i])) ==> w == DEFAULT_WHITE_POINT
    ensures NearWhiteTally(s).totalPixels > 0 ==>
      w * NearWhiteTally(s).totalPixels <= NearWhiteTally(s).totalBrightness
        < (w + 1) * NearWhiteTally(s).totalPixels
  {
    var t := NearWhiteTally(s);
    if t.totalPixels != 0 then
      MeanBounds(t.totalBrightness, t.totalPixels, 206, 255);
      t.totalBrightness / t.totalPixels
    else DEFAULT_WHITE_POINT
  }

  /** Splitting a scan in two splits both accumulators. */
  lemma {:induction false} TallyAppend(a: seq<Pixel>, b: seq<Pixel>)
    ensures NearWhiteTally(a + b).totalBrightness
      == NearWhiteTally(a).totalBrightness + NearWhiteTally(b).totalBrightness
    ensures NearWhiteTally(a + b).totalPixels
      == NearWhiteTally(a).totalPixels + NearWhiteTally(b).totalPixels
    decreases |b|
  {
    if |b| == 0 {
      assert a + b == a;
    } else {
      var b' := b[..|b| - 1];
      assert (a + b)[..|a + b| - 1] == a + b';
      TallyAppend(a, b');
    }
  }

  /** The accumulators depend only on which pixels occur, not on where. */
  lemma {:induction false} TallyPermutation(s: seq<Pixel>, t: seq<Pixel>)
    requires multiset(s) == multiset(t)
    ensures NearWhiteTally(s) == NearWhiteTally(t)
    decreases |s|
  {
    if |s| == 0 {
      assert |t| == |multiset(t)| == 0;
    } else {
      var last := s[|s| - 1];
      var s' := s[..|s| - 1];
      assert s == s' + [last];
      assert last in multiset(t);
      var i :| 0 <= i < |t| && t[i] == last;
      var t' := t[..i] + t[i + 1..];
      assert t == t[..i] + [last] + t[i + 1..];
      assert multiset(s') == multiset(t') by {
        assert multiset(s) == multiset(s') + multiset{last};
        assert multiset(t) == multiset(t') + multiset{last};
        assert multiset(s') == multiset(s) - multiset{last};
        assert multiset(t') == multiset(t) - multiset{last};
      }
      TallyPermutation(s', t');
      TallyAppend(s', [last]);
      TallyAppend(t[..i], [last]);
      TallyAppend(t[..i] + [last], t[i + 1..]);
      TallyAppend(t[..i], t[i + 1..]);
    }
  }

  /** The white point depends only on which pixels occur, not on where. */
  lemma WhitePointPermutation(s: seq<Pixel>, t: seq<Pixel>)
    requires multiset(s) == multiset(t)
    ensures ImageWhitePoint(s) == ImageWhitePoint(t)
  {
    TallyPermutation(s, t);
  }

  // ---------------------------------------------------------------------
  // White point with the source's 32-bit accumulators
  // ---------------------------------------------------------------------

  /** The largest image whose near-white sum cannot overflow an `Int`:
      `255 * MAX_EXACT_PIXELS <= MAX_VALUE`. */
  const MAX_EXACT_PIXELS: int := 8_421_504

  /** The accumulators as the source keeps them: `totalBrightness +=` and
      `totalPixels++` on Kotlin `Int`s, so each step wraps around. */
  function WrappedTally(s: seq<Pixel>): (t: Tally)
    ensures MIN_VALUE <= t.totalBrightness <= MAX_VALUE
    ensures MIN_VALUE <= t.totalPixels <= MAX_VALUE
  {
    if |s| == 0 then Tally(0, 0)
    else AccumulateWrapped(WrappedTally(s[..|s| - 1]), s[|s| - 1])
  }

  /** The source's accumulators are the exact ones reduced to 32 bits. */
  lemma {:induction false} WrappedTallyIsWrapped(s: seq<Pixel>)
    ensures WrappedTally(s).totalBrightness == Wrap(NearWhiteTally(s).totalBrightness)
    ensures WrappedTally(s).totalPixels == Wrap(NearWhiteTally(s).totalPixels)
  {
    if |s| > 0 {
      var s' := s[..|s| - 1];
      var exact := NearWhiteTally(s');
      WrappedTallyIsWrapped(s');
      WrapStep(exact.totalBrightness, exact.totalPixels, s[|s| - 1]);
    }
  }

  /** One scan step on wrapped accumulators wraps the exact step. */
  lemma WrapStep(brightness: int, pixels: int, pixel: Pixel)
    ensures AccumulateWrapped(Tally(Wrap(brightness), Wrap(pixels)), pixel) ==
      if IsNearWhite(pixel) then Tally(Wrap(brightness + Brightness(pixel)), Wrap(pixels + 1))
      else Tally(Wrap(brightness), Wrap(pixels))
  {
    if IsNearWhite(pixel) {
      WrapAdd(brightness, Brightness(pixel));
      WrapAdd(pixels, 1);
    }
  }

  /** One step of the source's scan on its `Int` accumulators. */
  function AccumulateWrapped(t: Tally, pixel: Pixel): Tally
  {
    if IsNearWhite(pixel) then
      Tally(Wrap(t.totalBrightness + Brightness(pixel)), Wrap(t.totalPixels + 1))
    else t
  }

  /** One more pixel of the scan, on the source's `Int` accumulators. */
  lemma WrappedTallyPrefix(s: seq<Pixel>, k: nat, totalBrightness: int, totalPixels: int)
    requires k < |s| && WrappedTally(s[..k]) == Tally(totalBrightness, totalPixels)
    ensures WrappedTally(s[..k + 1]) ==
      if IsNearWhite(s[k]) then Tally(Wrap(totalBrightness + Brightness(s[k])), Wrap(totalPixels + 1))
      else Tally(totalBrightness, totalPixels)
  {
    assert s[..k + 1][..k] == s[..k];
  }

  /** `getImageWhitePoint` exactly as written, 32-bit sums included. */
  function WhitePointAsWritten(s: seq<Pixel>): (w: Int)
    ensures NearWhiteTally(s).totalBrightness <= MAX_VALUE ==> w == ImageWhitePoint(s)
    ensures |s| <= MAX_EXACT_PIXELS ==> w == ImageWhitePoint(s)
  {
    var t := WrappedTally(s);
    var exact := NearWhiteTally(s);
    WrappedTallyIsWrapped(s);
    assert |s| <= MAX_EXACT_PIXELS ==> exact.totalBrightness <= MAX_VALUE by {
      if |s| <= MAX_EXACT_PIXELS {
        MulMonotone(exact.totalPixels, MAX_EXACT_PIXELS, 255);
      }
    }
    if t.totalPixels != 0 then Div(t.totalBrightness, t.totalPixels)
    else DEFAULT_WHITE_POINT
  }

  /** The as-written white point also depends only on which pixels occur:
      the wrapped accumulators are functions of the exact ones. */
  lemma WhitePointAsWrittenPermutation(s: seq<Pixel>, t: seq<Pixel>)
    requires multiset(s) == multiset(t)
    ensures WhitePointAsWritten(s) == WhitePointAsWritten(t)
  {
    TallyPermutation(s, t);
    WrappedTallyIsWrapped(s);
    WrappedTallyIsWrapped(t);
  }

  /** `getImageWhitePoint`: the column-by-column scan of the bitmap with
      `Int` accumulators, then the mean or the default. */
  method GetImageWhitePoint(image: Bitmap) returns (whitePoint: Int)
    ensures whitePoint == WhitePointAsWritten(image.pixels)
    ensures |image.pixels| <= MAX_EXACT_PIXELS ==> 206 <= whitePoint <= 255
    ensures (forall x, y :: 0 <= x < image.width && 0 <= y < image.height ==>
      !IsNearWhite(GetPixel(image, x, y))) ==> whitePoint == DEFAULT_WHITE_POINT
  {
    var tally := ScanNearWhite(image);
    whitePoint := if tally.totalPixels != 0 then Div(tally.totalBrightness, tally.totalPixels) else DEFAULT_WHITE_POINT;
    if forall x, y :: 0 <= x < image.width && 0 <= y < image.height ==>
        !IsNearWhite(GetPixel(image, x, y)) {
      NoNearWhiteInGrid(image);
    }
  }

  /** The two nested loops of `getImageWhitePoint`. */
  method ScanNearWhite(image: Bitmap) returns (tally: Tally)
    ensures tally == WrappedTally(image.pixels)
  {
    tally := Tally(0, 0);
    for x := 0 to image.width
      invariant x * image.height <= |image.pixels|
      invariant tally == WrappedTally(image.pixels[..x * image.height])
    {
      NextColumn(x, image.width, image.height);
      tally := ScanColumn(image, x, tally);
    }
    assert image.pixels[..image.width * image.height] == image.pixels;
  }

  /** The inner loop of `getImageWhitePoint`, over column `x`. */
  method ScanColumn(image: Bitmap, x: nat, tally: Tally) returns (next: Tally)
    requires x < image.width
    requires tally == WrappedTally(image.pixels[..x * image.height])
    ensures (x + 1) * image.height <= |image.pixels|
    ensures next == WrappedTally(image.pixels[..(x + 1) * image.height])
  {
    var s := image.pixels;
    var totalBrightness: Int := tally.totalBrightness;
    var totalPixels: Int := tally.totalPixels;
    NextColumn(x, image.width, image.height);
    var start: nat := x * image.height;
    var k: nat := start;
    for y := 0 to image.height
      invariant k == start + y
      invariant WrappedTally(s[..k]) == Tally(totalBrightness, totalPixels)
    {
      PixelInColumn(image, x, y, start);
      var pixel := GetPixel(image, x, y);
      WrappedTallyPrefix(s, k, totalBrightness, totalPixels);
      if pixel.r > 255 - THRESHOLD && pixel.g > 255 - THRESHOLD && pixel.b > 255 - THRESHOLD {
        var brightness := Brightness(pixel);
        totalBrightness := Wrap(totalBrightness + brightness);
        totalPixels := Wrap(totalPixels + 1);
      }
      k := k + 1;
    }
    next := Tally(totalBrightness, totalPixels);
  }

  /** A grid with no near-white pixel has no near-white entry at all. */
  lemma NoNearWhiteInGrid(image: Bitmap)
    requires forall x, y :: 0 <= x < image.width && 0 <= y < image.height ==>
      !IsNearWhite(GetPixel(image, x, y))
    ensures forall i :: 0 <= i < |image.pixels| ==> !IsNearWhite(image.pixels[i])
  {
    forall i | 0 <= i < |image.pixels|
      ensures !IsNearWhite(image.pixels[i])
    {
      var x, y := i / image.height, i % image.height;
      assert i == x * image.height + y;
      if x >= image.width {
        MulMonotone(image.width, x, image.height);
        assert false;
      }
      assert GetPixel(image, x, y) == image.pixels[i];
    }
  }

  /** A pure white pixel. */
  const WHITE: Pixel := Pixel(255, 255, 255, 255)

  function AllWhite(n: nat): (s: seq<Pixel>)
    ensures |s| == n
  {
    seq(n, _ => WHITE)
  }

  lemma {:induction false} AllWhiteTally(n: nat)
    ensures NearWhiteTally(AllWhite(n)) == Tally(255 * n, n)
  {
    if n > 0 {
      assert AllWhite(n)[..n - 1] == AllWhite(n - 1);
      AllWhiteTally(n - 1);
    }
  }

  /** An all-white image, such as a 2x2 one, has both statistics at 255. */
  lemma AllWhiteStatistics(n: nat)
    requires n > 0
    ensures MaxBrightness(AllWhite(n)) == 255
    ensures ImageWhitePoint(AllWhite(n)) == 255
  {
    AllWhiteTally(n);
    assert Brightness(AllWhite(n)[0]) == 255;
    DivUnique(255 * n, 255, 0, n);
  }

  /** One pure-white pixel past `MAX_EXACT_PIXELS` pushes the source's
      `totalBrightness` past `Int.MAX_VALUE`: the sum wraps negative and the
      white point comes out as -254 where the mean is 255. */
  lemma WhitePointOverflow()
    ensures WhitePointAsWritten(AllWhite(MAX_EXACT_PIXELS + 1)) == -254
    ensures ImageWhitePoint(AllWhite(MAX_EXACT_PIXELS + 1)) == 255
  {
    var n := MAX_EXACT_PIXELS + 1;
    AllWhiteTally(n);
    WrappedTallyIsWrapped(AllWhite(n));
    assert WrappedTally(AllWhite(n)) == Tally(-2_147_483_521, n);
    assert TruncDiv(-2_147_483_521, n) == -254;
  }
}

=== FILE: transform.dfy ===
/** The five-argument `adjustBrightness`: every colour channel is scaled by
    (screen brightness / 100) * (image white point / screen white point),
    truncated to an `Int` and clamped to [0, maxPixelBrightness]; alpha is
    copied. */
module Transform {
  import opened KotlinInt
  import opened Argb
  import opened Bitmap

  /** `Double.toInt()` of a finite value: truncation toward zero, then
      saturation at the `Int` range. */
  function Saturate(x: int): (v: Int)
    ensures MIN_VALUE <= x <= MAX_VALUE ==> v == x
    ensures x < MIN_VALUE ==> v == MIN_VALUE
    ensures x > MAX_VALUE ==> v == MAX_VALUE
  {
    if x < MIN_VALUE then MIN_VALUE else if x > MAX_VALUE then MAX_VALUE else x
  }

  /** The sign (-1, 0 or 1) of an integer. */
  function Sign(x: int): int
  {
    if x > 0 then 1 else if x < 0 then -1 else 0
  }

  /** `(c * (screenBrightness / 100.0) * (imageWhitePoint.toDouble() /
      screenWhitePoint)).toInt()`, with the products and quotients exact.
      A zero screen white point makes the quotient an IEEE infinity (or NaN
      for 0/0); `toInt` sends NaN to 0 and the infinities to the `Int`
      bounds, and 0 times an infinity is NaN. */
  function ScaleChannel(c: Channel, screenBrightness: Int, imageWhitePoint: Int, screenWhitePoint: Int): (v: Int)
    ensures screenWhitePoint == 0 ==>
      var n := c * screenBrightness * imageWhitePoint;
      v == if n > 0 then MAX_VALUE else if n < 0 then MIN_VALUE else 0
    ensures screenWhitePoint != 0 ==>
      Abs(v) <= Abs(c * screenBrightness * imageWhitePoint) / Abs(100 * screenWhitePoint)
    ensures screenWhitePoint != 0 && v != 0 ==>
      (v > 0 <==> (c * screenBrightness * imageWhitePoint > 0) == (screenWhitePoint > 0))
  {
    SignOfProduct(c * screenBrightness, imageWhitePoint);
    if screenWhitePoint == 0 then
      var sign := Sign(c * screenBrightness) * Sign(imageWhitePoint);
      if sign > 0 then MAX_VALUE else if sign < 0 then MIN_VALUE else 0
    else
      Saturate(TruncDiv(c * screenBrightness * imageWhitePoint, 100 * screenWhitePoint))
  }

  /** The sign of a product is the product of the signs. */
  lemma SignOfProduct(x: int, y: int)
    ensures Sign(x * y) == Sign(x) * Sign(y)
  {
    if x > 0 && y > 0 {
      MulMonotone(1, x, y);
    } else if x < 0 && y < 0 {
      MulMonotone(x, -1, -y);
    } else if x > 0 && y < 0 {
      MulMonotone(1, x, -y);
    } else if x < 0 && y > 0 {
      MulMonotone(1, -x, y);
    }
  }

  /** `value.coerceIn(lo, hi)` for a non-empty range. */
  function CoerceIn(value: int, lo: int, hi: int): (v: int)
    requires lo <= hi
    ensures lo <= v <= hi
    ensures lo <= value <= hi ==> v == value
    ensures value < lo ==> v == lo
    ensures value > hi ==> v == hi
  {
    if value < lo then lo else if value > hi then hi else value
  }

  /** One colour channel after scaling and clamping. */
  function AdjustChannel(c: Channel, maxPixelBrightness: Int, screenBrightness: Int,
                         imageWhitePoint: Int, screenWhitePoint: Int): (v: Int)
    requires maxPixelBrightness >= 0
    ensures 0 <= v <= maxPixelBrightness
  {
    CoerceIn(ScaleChannel(c, screenBrightness, imageWhitePoint, screenWhitePoint), 0, maxPixelBrightness)
  }

  /** The body of the pixel loop: unpack, scale, clamp, and pack again with
      `alpha shl 24 or (red shl 16) or (green shl 8) or blue`. Clamped
      channels above 255 spill into their neighbours when packed, which is
      why alpha and the exact channel values are only promised for
      `maxPixelBrightness <= 255`. */
  function AdjustPixel(p: Pixel, maxPixelBrightness: Int, screenBrightness: Int,
                       imageWhitePoint: Int, screenWhitePoint: Int): (q: Pixel)
    requires maxPixelBrightness >= 0
    ensures q.r <= maxPixelBrightness && q.g <= maxPixelBrightness && q.b <= maxPixelBrightness
    ensures maxPixelBrightness <= 255 ==> q.a == p.a
    ensures maxPixelBrightness <= 255 ==>
      q.r == AdjustChannel(p.r, maxPixelBrightness, screenBrightness, imageWhitePoint, screenWhitePoint) &&
      q.g == AdjustChannel(p.g, maxPixelBrightness, screenBrightness, imageWhitePoint, screenWhitePoint) &&
      q.b == AdjustChannel(p.b, maxPixelBrightness, screenBrightness, imageWhitePoint, screenWhitePoint)
  {
    var red := AdjustChannel(p.r, maxPixelBrightness, screenBrightness, imageWhitePoint, screenWhitePoint);
    var green := AdjustChannel(p.g, maxPixelBrightness, screenBrightness, imageWhitePoint, screenWhitePoint);
    var blue := AdjustChannel(p.b, maxPixelBrightness, screenBrightness, imageWhitePoint, screenWhitePoint);
    var q := Unpack(PackChannels(p.a, red, green, blue));
    assert maxPixelBrightness <= 255 ==> q == Pixel(p.a, red, green, blue) by {
      if maxPixelBrightness <= 255 {
        UnpackPack(Pixel(p.a, red, green, blue));
      }
    }
    q
  }

  /** What the five-argument `adjustBrightness` produces. */
  datatype Outcome =
    | Adjusted(image: Bitmap)
      /** `coerceIn(0, maxPixelBrightness)` threw: the range was empty. */
    | EmptyRange

  /** The five-argument `adjustBrightness`. It fails only when some pixel
      reaches `coerceIn` with a negative upper bound. */
  function AdjustBrightness(image: Bitmap, maxPixelBrightness: Int, screenBrightness: Int,
                            imageWhitePoint: Int, screenWhitePoint: Int): (r: Outcome)
    ensures r.EmptyRange? <==> |image.pixels| > 0 && maxPixelBrightness < 0
    ensures r.Adjusted? ==>
      r.image.width == image.width && r.image.height == image.height &&
      |r.image.pixels| == |image.pixels|
    ensures r.Adjusted? ==> forall i :: 0 <= i < |r.image.pixels| ==>
      r.image.pixels[i].r <= maxPixelBrightness &&
      r.image.pixels[i].g <= maxPixelBrightness &&
      r.image.pixels[i].b <= maxPixelBrightness
    ensures r.Adjusted? && maxPixelBrightness <= 255 ==> forall i :: 0 <= i < |r.image.pixels| ==>
      r.image.pixels[i].a == image.pixels[i].a &&
      r.image.pixels[i].r == AdjustChannel(image.pixels[i].r, maxPixelBrightness, screenBrightness, imageWhitePoint, screenWhitePoint) &&
      r.image.pixels[i].g == AdjustChannel(image.pixels[i].g, maxPixelBrightness, screenBrightness, imageWhitePoint, screenWhitePoint) &&
      r.image.pixels[i].b == AdjustChannel(image.pixels[i].b, maxPixelBrightness, screenBrightness, imageWhitePoint, screenWhitePoint)
  {
    if |image.pixels| > 0 && maxPixelBrightness < 0 then EmptyRange
    else
      var pixels := seq(|image.pixels|, i requires 0 <= i < |image.pixels| =>
        AdjustPixel(image.pixels[i], maxPixelBrightness, screenBrightness, imageWhitePoint, screenWhitePoint));
      Adjusted(Image(image.width, image.height, pixels))
  }

  // ---------------------------------------------------------------------
  // The scale as exact rational arithmetic
  // ---------------------------------------------------------------------

  /** Truncation of a real toward zero, as `toInt()` does before saturating. */
  function TruncReal(x: real): int
  {
    if x >= 0.0 then x.Floor else -((-x).Floor)
  }

  lemma FloorOfQuotient(n: nat, d: nat)
    requires d > 0
    ensures (n as real / d as real).Floor == n / d
  {
    var q, r := n / d, n % d;
    assert n == q * d + r && 0 <= r < d;
    var f := r as real / d as real;
    assert f * d as real == r as real;
    assert 0.0 <= f < 1.0;
    assert (q * d) as real == q as real * d as real;
    var z := q as real + f;
    assert z * d as real == n as real;
    RealQuotientUnique(n as real, d as real, z);
  }

  /** Integer truncating division agrees with truncating the exact rational
      quotient. */
  lemma TruncDivIsTruncReal(n: int, d: int)
    requires d != 0
    ensures TruncDiv(n, d) == TruncReal(n as real / d as real)
  {
    var m := Abs(n) as real / Abs(d) as real;
    FloorOfQuotient(Abs(n), Abs(d));
    assert 0.0 <= m;
    if (n >= 0) == (d > 0) {
      QuotientBySign(n, d);
      assert n as real / d as real == m;
    } else {
      QuotientBySign(n, d);
      assert n as real / d as real == -m;
      if m == 0.0 {
        assert Abs(n) == 0;
      }
    }
  }

  /** A real quotient is the quotient of magnitudes, negated when the signs
      differ. */
  lemma QuotientBySign(n: int, d: int)
    requires d != 0
    ensures (n >= 0) == (d > 0) ==> n as real / d as real == Abs(n) as real / Abs(d) as real
    ensures (n >= 0) != (d > 0) ==> n as real / d as real == -(Abs(n) as real / Abs(d) as real)
  {
    var m := Abs(n) as real / Abs(d) as real;
    assert m * Abs(d) as real == Abs(n) as real;
    var z := if (n >= 0) == (d > 0) then m else -m;
    assert z * d as real == n as real;
    RealQuotientUnique(n as real, d as real, z);
  }

  /** The real quotient is the only number that multiplies back. */
  lemma RealQuotientUnique(x: real, y: real, z: real)
    requires y != 0.0 && z * y == x
    ensures x / y == z
  {
    assert (x / y) * y == x;
    assert (x / y - z) * y == 0.0;
  }

  /** Away from a zero screen white point, the channel is the source's
      floating-point formula evaluated exactly and converted by `toInt()`. */
  lemma ScaleChannelIsRational(c: Channel, screenBrightness: Int, imageWhitePoint: Int, screenWhitePoint: Int)
    requires screenWhitePoint != 0
    ensures ScaleChannel(c, screenBrightness, imageWhitePoint, screenWhitePoint)
      == Saturate(TruncReal(c as real * (screenBrightness as real / 100.0)
                             * (imageWhitePoint as real / screenWhitePoint as real)))
  {
    var n := c * screenBrightness * imageWhitePoint;
    var d := 100 * screenWhitePoint;
    ScaleAsQuotient(c, screenBrightness, imageWhitePoint, screenWhitePoint);
    TruncDivIsTruncReal(n, d);
  }

  /** The floating-point product, evaluated exactly, is one quotient of
      integers. */
  lemma ScaleAsQuotient(c: int, sb: int, iwp: int, swp: int)
    requires swp != 0
    ensures c as real * (sb as real / 100.0) * (iwp as real / swp as real)
      == (c * sb * iwp) as real / (100 * swp) as real
  {
    RationalProduct(c as real, sb as real, iwp as real, swp as real);
    RealOfProduct(c, sb, iwp);
    assert (100 * swp) as real == 100.0 * swp as real;
  }

  lemma RealOfProduct(x: int, y: int, z: int)
    ensures (x * y * z) as real == x as real * y as real * z as real
  {
  }

  lemma RationalProduct(a: real, s: real, w: real, v: real)
    requires v != 0.0
    ensures a * (s / 100.0) * (w / v) == (a * s * w) / (100.0 * v)
  {
    var lhs := a * (s / 100.0) * (w / v);
    assert (s / 100.0) * 100.0 == s;
    assert (w / v) * v == w;
    assert lhs * (100.0 * v) == (a * ((s / 100.0) * 100.0)) * ((w / v) * v);
  }

  // ---------------------------------------------------------------------
  // Edge cases and monotonicity
  // ---------------------------------------------------------------------

  /** Full screen brightness with matching white points leaves a channel as
      it was, up to the clamp. */
  lemma NeutralScale(c: Channel, maxPixelBrightness: Int, whitePoint: Int)
    requires maxPixelBrightness >= 0 && whitePoint != 0
    ensures AdjustChannel(c, maxPixelBrightness, 100, whitePoint, whitePoint)
      == if c < maxPixelBrightness then c else maxPixelBrightness
  {
    assert ScaleChannel(c, 100, whitePoint, whitePoint) == c by {
      var d := 100 * whitePoint;
      assert c * 100 * whitePoint == c * d;
      ExactQuotient(c, d);
    }
  }

  /** A multiple of `d` divided by `d` gives back the factor. */
  lemma ExactQuotient(c: nat, d: int)
    requires d != 0
    ensures TruncDiv(c * d, d) == c
  {
    if d > 0 {
      DivUnique(c * d, c, 0, d);
    } else {
      assert Abs(c * d) == c * -d;
      DivUnique(c * -d, c, 0, -d);
    }
  }

  /** A dark (or negative) screen brightness turns every colour channel
      off, for the non-negative white points the pipeline supplies. */
  lemma DarkScreen(c: Channel, maxPixelBrightness: Int, screenBrightness: Int,
                   imageWhitePoint: Int, screenWhitePoint: Int)
    requires maxPixelBrightness >= 0 && screenBrightness <= 0
    requires imageWhitePoint >= 0 && screenWhitePoint >= 0
    ensures AdjustChannel(c, maxPixelBrightness, screenBrightness, imageWhitePoint, screenWhitePoint) == 0
  {
    if screenWhitePoint != 0 {
      var n := c * screenBrightness * imageWhitePoint;
      MulMonotone(screenBrightness, 0, c);
      MulMonotone(c * screenBrightness, 0, imageWhitePoint);
      assert n <= 0;
    } else {
      MulMonotone(screenBrightness, 0, c);
    }
  }

  /** A brighter screen never darkens a channel. */
  lemma ScaleMonotone(c: Channel, maxPixelBrightness: Int, sb1: Int, sb2: Int,
                      imageWhitePoint: Int, screenWhitePoint: Int)
    requires maxPixelBrightness >= 0 && sb1 <= sb2
    requires imageWhitePoint >= 0 && screenWhitePoint > 0
    ensures AdjustChannel(c, maxPixelBrightness, sb1, imageWhitePoint, screenWhitePoint)
      <= AdjustChannel(c, maxPixelBrightness, sb2, imageWhitePoint, screenWhitePoint)
  {
    MulMonotone(sb1, sb2, c);
    MulMonotone(c * sb1, c * sb2, imageWhitePoint);
    assert c * sb1 * imageWhitePoint <= c * sb2 * imageWhitePoint;
    TruncDivMonotone(c * sb1 * imageWhitePoint, c * sb2 * imageWhitePoint, 100 * screenWhitePoint);
  }

  /** Monotonicity needs a non-negative image white point: with the white
      point -254 of an overflowed sum, a dimmer (negative) percentage gives
      a brighter channel than 0%. */
  lemma NegativeWhitePointReversesOrder()
    ensures AdjustChannel(255, 255, -1, -254, 120) == 5
    ensures AdjustChannel(255, 255, 0, -254, 120) == 0
  {
    assert TruncDiv(255 * -1 * -254, 100 * 120) == 5;
  }
}
